=== FILE: README.md ===
# Music cache server: a Dafny model of its core

The server in `main.py` caches audio for the track a Spotify account is
playing. A `tracks` table (keyed by a normalised `artist - title` search
key) records for each track whether it is being downloaded (`caching`),
ready (`cached`, with the name of its `.opus` file) or failed (`error`).
The music directory holds the downloaded files. Four pieces of logic sit
between these two stores and the HTTP endpoints, and this project models
them and proves their properties:

- **Byte ranges for `/api/stream/<file_name>`.** This covers the guard that
  refuses `..` (403) and missing names (404) and the access-time update.
  It also covers the unanchored search for `bytes=(\d+)-(\d*)` in the
  `Range` header, the defaults `0` and `size - 1`, and the 416 rule. The
  result is a 206 window with its `Content-Range`, `Content-Length` and
  body (module `ByteRange`; the endpoint in `Lifecycle.ServeStream` and
  `Server.MusicCache.Stream`). The rule is the single-range partial-content
  rule of section 14 of RFC 9110, with the code's deviations kept: a
  reversed range is not refused, and the suffix form `bytes=-N` serves the
  whole file as a 206.
- **Least-recently-used cleanup** (`cleanup_cache`). It sums the
  directory. Over 3 GiB, it walks the cached records oldest first and
  deletes each record's file together with every row naming it. It stops
  once the excess over 2.5 GiB has been freed. The module `Eviction` states
  this as functions with lemmas. `Server.MusicCache.Cleanup` performs it in
  place with a loop.
- **The record life cycle.** Now-playing inserts or resets a row to
  `caching` and starts a download, or only reports the status. The end of
  a download renames the file into place and then marks the row `cached`,
  or marks it `error`. `/api/play` looks up a cached row whose file exists
  (module `Lifecycle`; in place in `Server.MusicCache`).
- **The search key and the input check of `/api/play`** (module
  `Requests`, over the Python string primitives in `Text`).

The two stores are a map from search key to `Track` and a map from file
name to bytes. The class `Server.MusicCache` holds both as fields, and its
methods change them the way the handlers change the database and the disk.
Each method is proved against the functions of `Lifecycle` and `Eviction`,
and the properties of those functions are proved as lemmas.

Python's `os.path.exists` is true for the names `""`, `.` and `..` (the
directory itself and its parent). `os.path.abspath` lets only `..` escape
the music directory. The model keeps both facts (`Catalog.PathExists`).
So `/api/stream/.` passes both guards. Its size is then the size that
`os.path.getsize` reports for the directory, which is an input of the model.
A range at or past that size is refused with 416. Every other answer has to
read the directory as a file, which fails (`DirectoryError`). A cached row
whose file name is `.` or `..` also counts as having its file.

`main.py` has no per-key deduplication of downloads, no retry or backoff,
and no reference counts that protect a file being read from eviction. An
`error` row stays `error`. The model follows the code and has none of
these.

## Model

| member | source | states |
|---|---|---|
| Text.Strip | main.py:248 | `str.strip()`: the result is the input with a whitespace prefix and a whitespace suffix cut off (Python's `isspace` set), neither starts nor ends with whitespace, and is empty exactly when the input is all whitespace |
| Text.TrimStart | main.py:248 | removes exactly the leading run of whitespace: the result is a suffix of the input, what was cut is all whitespace, and the result does not start with whitespace |
| Text.TrimEnd | main.py:248 | removes exactly the trailing run of whitespace: the result is a prefix, what was cut is all whitespace, and the result does not end with whitespace |
| Text.StripPadding | main.py:248 | whitespace added on either side of a string does not change its `strip()` |
| Text.Lower | main.py:248 | `str.lower()`: same length, every character lowered one by one |
| Text.LowerPadded | main.py:248 | lowering leaves whitespace padding untouched and lowers the padded string piece by piece |
| Text.ShowNat | main.py:379 | the decimal text `str(n)` that the `Content-Range` header carries is non-empty, all digits, reads back as `n`, is `0` for zero and has no leading zero otherwise |
| Text.Join | main.py:246 | `", ".join(names)`: empty for no names, the name itself for one, and otherwise starts with the first name and ends with the last |
| Text.DecimalValue | main.py:369-370 | `int(...)` of the captured digits: zero exactly when every digit is `0` |
| Requests.SearchKey | main.py:248 | the key `artist.lower().strip() - title.lower().strip()` (built the same way at main.py:323) is all lower case: lowering it again changes nothing |
| Requests.NowPlayingKey | main.py:246-248 | the key of now-playing joins the artists with `, `; for a track with one artist it is the key `/api/play` builds from that artist and the title, so both endpoints reach the same row |
| Requests.SearchKeyNormalises | main.py:246-248 | an artist and a title that differ only in letter case or surrounding whitespace give the same search key, so they reach the same row (the same holds at main.py:323) |
| Requests.CheckPlayAsWritten | main.py:319-323 | the check as written: a body that is not an object, or a missing or non-string member, makes the eager `all([...])` raise (500); two strings give 400 when one is blank, otherwise the key |
| Requests.CheckPlay | main.py:321-323 | the check as its message promises: accepted exactly when both members are strings that are not blank, with the key of `artist` and `song_name`; every refusal is 400 |
| Requests.MissingFieldCrashes | main.py:321 | for the body `{"artist": "Pink Floyd"}` the code as written answers 500 where the corrected check answers 400 |
| Requests.CheckPlayAgreesOnStrings | main.py:321-323 | when both members are strings, the code as written and the corrected check give the same answer |
| ByteRange.DigitRun | main.py:367 | a greedy `\d*` from a position: the run is inside the header, all digits, and maximal |
| ByteRange.FirstMatch | main.py:367 | `re.search` is leftmost: the position found matches, and no earlier position does |
| ByteRange.MatchAt | main.py:367 | the pattern tried at one position: it matches exactly when `bytes=` is followed by a digit run and a `-`; the first group is then the whole digit run, and the second group is present exactly when a digit follows the `-` |
| ByteRange.RangeSearch | main.py:367 | `re.search`: no match exactly when the pattern matches at no position of the header; otherwise the match at the leftmost position |
| ByteRange.RequestedStart | main.py:366-369 | the start of the range: the first captured number, or `0` when the pattern does not match |
| ByteRange.RequestedEnd | main.py:366-370 | the end of the range: the second captured number when it is there, or `size - 1` |
| ByteRange.ResolveRange | main.py:363-373 | no header or an empty header gives the whole file; a window always lies inside the file, starts at the first matched number (default 0), ends at the second (default `size - 1`) and has length `end - start + 1`; 416 exactly when either bound is at or past the end |
| ByteRange.Slice | main.py:374-377 | `seek(start)` then `read(length)`: a length inside the file reads exactly those bytes, a negative length reads to the end |
| ByteRange.ContentRange | main.py:379 | the `Content-Range` value is `bytes A-B/C` where `A`, `B` and `C` are digit strings that read back as the start, the end and the file size |
| ByteRange.MatchesAtStart | main.py:367-370 | the header `bytes=S-E`, followed by anything that does not extend `E`, captures `S` and `E` |
| ByteRange.MatchesOpenEnded | main.py:367-370 | the header `bytes=S-` captures `S` and no second bound |
| ByteRange.NoMatchWithoutB | main.py:367 | the pattern matches nowhere after the last `b` of the header |
| ByteRange.SuffixFormNeverMatches | main.py:367 | the suffix form `bytes=-N` never matches |
| ByteRange.ClosedRangeServed | main.py:366-373 | `bytes=S-E` with `S <= E < size`, even followed by further ranges, gives the window `S..E` of `E - S + 1` bytes: the first range wins |
| ByteRange.OpenRangeServed | main.py:366-373 | `bytes=S-` with `S < size` gives the window `S..size-1` |
| ByteRange.UnmatchedHeaderServesWholeWindow | main.py:366-373 | a non-empty header the pattern does not match gives the window `0..size-1` (a 206, not a 200) |
| ByteRange.SuffixRangeServesWholeWindow | main.py:366-373 | `bytes=-N` on a non-empty file gives the window `0..size-1` |
| ByteRange.StartBeyondEndRefused | main.py:371-372 | a first bound at or past the end is refused with 416 |
| ByteRange.LastBeyondEndRefused | main.py:371-372 | a second bound at or past the end is refused with 416 |
| ByteRange.EmptyFileRefusesRanges | main.py:366-372 | an empty file refuses every non-empty `Range` header |
| ByteRange.ReversedRangeAccepted | main.py:371-373 | `bytes=S-E` with `E < S < size` is not refused; its length is zero or negative |
| ByteRange.OrderedWindowBody | main.py:373-381 | for `S <= E < size` the body is exactly bytes `S..E`, as many as `Content-Length` says |
| ByteRange.ReversedWindowBody | main.py:373-377 | for a range reversed by more than one byte, the body is the rest of the file from `S`, and `Content-Length` is negative |
| Catalog.PathExists | main.py:263 | `os.path.exists` of a joined name (also at main.py:330 and main.py:346): every stored file exists, and so do the directory itself (`""`, `.`) and its parent `..`; no other name does |
| Catalog.Total | main.py:126 | the sum of the sizes of the directory's regular files: zero exactly when every file is empty |
| Catalog.TotalRemove | main.py:126 | the directory sum is the same whichever file is counted first |
| Catalog.DropFile | main.py:157 | `DELETE ... WHERE file_name = n` removes exactly the rows naming `n` and keeps the others unchanged |
| Catalog.Touch | main.py:354 | `UPDATE ... SET last_accessed_at` changes only the access time of rows naming the file, and keeps every key |
| Catalog.TouchKeepsConsistent | main.py:349-361 | the access-time update of `/api/stream` keeps every cached record backed by its file |
| Eviction.CachedByAge | main.py:140 | the rows of `SELECT ... WHERE status = 'cached' ORDER BY last_accessed_at ASC`: every cached key once, NULLs last; its head is a least recently accessed cached record |
| Eviction.Step | main.py:148-162 | one iteration: it changes something exactly when the name is not NULL or empty and names a stored file; it then removes that file, deletes exactly the rows naming it, adds its size to the deleted total and one to the count; it never adds a file |
| Eviction.Sweep | main.py:143-162 | the loop over the candidates: nothing happens once the deleted total has reached the goal; the total and the count only grow, and when the count does not grow the directory and the table are unchanged |
| Eviction.CleanupResult | main.py:119-162 | the whole of `cleanup_cache`: within the 3 GiB limit nothing changes; when nothing was deleted the directory and the table are as before |
| Eviction.CandidateNames | main.py:140-147 | the `file_name` column of the selected rows, one per row, in the query's order |
| Eviction.SweepOnlyRemoves | main.py:143-162 | the loop only deletes: each surviving file and row is unchanged |
| Eviction.SweepAccounting | main.py:153-162 | the deleted total grows by exactly the size of each deleted file, and the count by one per file |
| Eviction.SweepRowsFollowFiles | main.py:154-158 | a row is deleted exactly when the file it names was deleted |
| Eviction.SweepOnlyCandidates | main.py:143-154 | only files named by a selected row are deleted |
| Eviction.SweepReachesGoalOrExhausts | main.py:143-154 | the loop ends with the goal reached or with every candidate file gone |
| Eviction.SweepOvershoot | main.py:143-161 | starting below the goal, the loop overshoots it by less than the largest file |
| Eviction.SweepInOrder | main.py:140-154 | a later candidate's file is deleted only after every earlier candidate's file |
| Eviction.CleanupAccounting | main.py:126-162 | the directory shrinks by exactly the deleted total |
| Eviction.CleanupReachesTarget | main.py:128-154 | over the limit, cleanup brings the directory down to the target, or deletes the file of every cached record |
| Eviction.CleanupOvershoot | main.py:134-161 | cleanup frees less than one file more than the excess over the target |
| Eviction.ListedOlderFirst | main.py:140 | in the query's result a record accessed strictly earlier comes first |
| Eviction.CleanupRemovesFileWithRows | main.py:150-158 | every surviving row is unchanged, and a row is gone exactly when its file was present and was deleted |
| Eviction.CleanupRemovesOnlyCachedFiles | main.py:140-154 | every deleted file is named by a cached record |
| Eviction.CleanupEvictsLeastRecentFirst | main.py:140-154 | least recently used first: if the file of a more recently accessed cached record was deleted, so was the file of a less recently accessed one |
| Eviction.CleanupKeepsConsistent | main.py:150-158 | cleanup leaves no cached record naming a deleted file |
| Lifecycle.NowPlayingDecision | main.py:259-278 | insert when there is no row; reset exactly when the row is cached and its file name is NULL, empty or not found; otherwise report the row's status, and a reported `cached` has its file |
| Lifecycle.AfterNowPlaying | main.py:261-276 | only the key's row changes; an insert is `Track(Caching, None, None)`; a reset sets `caching` and a NULL file name and keeps the access time; a report changes nothing |
| Lifecycle.NowPlayingIdempotent | main.py:261-278 | a second poll for the same track starts nothing and changes nothing |
| Lifecycle.ErrorAndCachingStartNothing | main.py:262-278 | `caching` and `error` rows are reported as they are and never restart a download |
| Lifecycle.NowPlayingKeepsConsistent | main.py:267-274 | now-playing keeps every cached record backed by its file |
| Lifecycle.FinalName | main.py:181-182 | the final name `<uuid>.opus` is a plain file name (never `""`, `.` or `..`) and a URL path segment when the UUID has no `/` |
| Lifecycle.MarkError | main.py:218-219 | `UPDATE tracks SET status = 'error' WHERE search_query = key`: the key's row gets status `error` and keeps its file name and access time; every other row and the set of keys are unchanged |
| Lifecycle.AfterDownload | main.py:197-220 | only the key's row changes; it becomes `cached` exactly when the file exists and its tags are readable; then it names the final file, which holds the downloaded bytes, with the access time set; otherwise only its status becomes `error`, and its file name and access time stay; a present file is renamed, so the tool's name is gone, the final name holds its bytes and every other file is unchanged, whether or not its tags can be read; a failed download leaves the directory as it was |
| Lifecycle.DownloadKeepsConsistent | main.py:200-210 | a download keeps every cached record backed by its file |
| Lifecycle.UnreadableTagsLeaveOrphan | main.py:200-203 | when the tags cannot be read, the renamed file stays with no row naming it |
| Lifecycle.PlayLookup | main.py:326-333 | a stream URL exactly for a cached row whose file exists, as `/api/stream/<file_name>`; otherwise a refusal, which is 500 exactly when the key's row is cached with a NULL file name and 404 in every other case |
| Lifecycle.Play | main.py:318-333 | the endpoint with the corrected input check: 415 for a body that is not JSON; 400 for a refused body; for an accepted body exactly the answer of `PlayLookup` on its key (the URL `/api/stream/<file_name>`, or 404, or 500 for a NULL name) |
| Lifecycle.PlayAsWritten | main.py:318-333 | the endpoint as written: 415 for a body that is not JSON; 500 for a body that is not an object or a missing or non-string member; otherwise the refusal of the check as written, or for an accepted body exactly the answer of `PlayLookup` on its key |
| Lifecycle.PlayAgreesOnStrings | main.py:318-333 | on a body of two strings the endpoint as written and the corrected one give the same answer |
| Lifecycle.SizeOf | main.py:363 | `os.path.getsize` of a name past both guards: the size of the directory entry for `""` or `.`, otherwise the length of the stored file, which is then known to exist |
| Lifecycle.ServeStream | main.py:343-382 | 403 exactly for `..`; 404 exactly for a name that does not exist; 416 exactly when the name exists and the range is refused for its size (the file's, or the directory's for `.`); a failure exactly for `.` with any other header; a 200 only without a range header, with the whole file; a 206 never announces more bytes than the file has |
| Lifecycle.DirectoryRangeBeyondSizeRefused | main.py:363-372 | `/api/stream/.` with `bytes=S-` and `S` at or past the directory's size is refused with 416 |
| Lifecycle.DirectoryNeverServed | main.py:363-377 | `/api/stream/.` never sends anything: it is refused with 416 or fails |
| Lifecycle.StreamClosedRange | main.py:363-381 | `bytes=S-E` with `S <= E < size` gives 206 with `Content-Range: bytes S-E/size`, `Content-Length` `E - S + 1`, and bytes `S..E` of the file |
| Lifecycle.StreamWithoutRange | main.py:363-365 | without a `Range` header, or with an empty one, a stored file is sent whole |
| Lifecycle.StreamRangeBeyondEnd | main.py:371-372 | a range starting or ending at or past the end gives 416 |
| Lifecycle.FirstPlayThenServe | main.py:200-381 | end to end: a new track is inserted as `caching`; after a successful download, now-playing reports it cached, `/api/play` returns its URL, and streaming it gives the downloaded bytes |
| Server.MusicCache.NowPlaying | main.py:246-278 | builds the key from the joined artists and the title, and leaves the state `AfterNowPlaying`; starts a download exactly when the decision is not a report; the status is `caching` then, otherwise the row's own |
| Server.MusicCache.Register | main.py:256-278 | the same for a key already built |
| Server.MusicCache.CompleteDownload | main.py:197-220 | the new state is `AfterDownload` of the old one |
| Server.MusicCache.Stream | main.py:342-382 | answers `ServeStream` of the directory, given the size reported for the directory itself; leaves the files alone; touches the access time of the rows naming the file exactly when the file passed both guards |
| Server.MusicCache.DirectorySize | main.py:126 | the loop's sum is the total size of the directory's files |
| Server.MusicCache.Cleanup | main.py:119-169 | the new table and directory, the deleted total and the count are those of `CleanupResult` on the old state |
| Server.MusicCache.Evict | main.py:143-162 | the loop over the candidates leaves exactly the state, total and count of `Sweep` from the old state |

## Left out

- Flask routing, CORS, the API-key decorator and the request logging middleware: framework glue.
- The Spotify token refresh and now-playing request. The artists and the title are inputs of `Server.MusicCache.NowPlaying`. The response fields other than `status` are not modelled.
- The Postgres pool and SQL execution. The table is a map. The result of `ORDER BY last_accessed_at ASC` is an input of `Cleanup`, constrained by `Eviction.CachedByAge`: NULLs come last, and ties may come in either order.
- Database errors and other unexpected exceptions in the handlers and the download. They become 500 answers, or a logged and abandoned download; they are not modelled.
- Failures inside the per-file step of cleanup. The code logs them and moves on to the next candidate. The model takes `os.remove` and the `DELETE` to succeed together. So it does not capture the case where the file is removed, the `DELETE` fails, the file's rows stay, and its size is not counted. An exception outside that step abandons the cleanup and is not modelled either.
- Lifecycle.Play: follows the corrected input check, so a body without a string `song_name` or `artist` gets 400 where the code answers 500. The endpoint as written is `Lifecycle.PlayAsWritten`, and `Lifecycle.PlayAgreesOnStrings` shows the two differ only on such bodies.
- Lifecycle.ServeStream: `DirectoryError` stands for two different failures on `/api/stream/.`. Without a range, `send_file` fails before answering. With a range inside the directory's size, a 206 header is sent and reading the body then fails. The model does not tell them apart.
- yt-dlp, ffmpeg and mutagen. The download is an input `Fetch`: failure, or a file under some name. The readability of the tags is a boolean. The title, artist, album and duration read from the tags are not stored in the model.
- The fresh UUID. It is an input `id`.
- Threads and `cleanup_lock`. Every operation runs alone, so the `ON CONFLICT DO NOTHING` race between two polls is not modelled. The download, the cleanup it starts afterwards, and the access-time update of `/api/stream` run in the background in the code. In the model they are separate, synchronous calls; the access-time update happens before the range handling.
- The clock. `NOW()` is an integer input `now`.
- The gigabyte and megabyte figures in log messages: floats used only in text.
- `Settings`, environment validation and the creation of the music directory at start-up.
- `/api/tracks` and `/health`: they read and list; nothing depends on them.
- The `Content-Type` and `Accept-Ranges` headers and the streaming of `send_file`. The whole-file answer is the file's bytes.
- `\d` in Python also matches non-ASCII decimal digits, and `str.lower()` lowers every Unicode capital. The model keeps ASCII digits, and ASCII and Latin-1 capitals only.
- `CACHE_TARGET_BYTES` is a float, so the goal `total - CACHE_TARGET_BYTES` is a float. The model compares integers, which is exact while the sizes stay below 2^53 bytes.
- The `INSERT` of now-playing sets no access time (a NULL `last_accessed_at`); the table's default value is not part of this model.
- `request.get_json()` on a body that claims to be JSON but does not parse answers 400 before the input check runs. The model's `Body` is an already parsed value, so that request is not represented.
- ByteRange.MatchAt: its contract says when the second group is present but not its value. That value is proved for the headers `bytes=S-E` in `ByteRange.MatchesAtStart`.
- Server.MusicCache.Stream: requires a name without `/`, because the URL rule `<string:file_name>` never passes one.

## Findings

| source | as written | input that shows it | evidently intended | confidence | as-written member | corrected member |
|---|---|---|---|---|---|---|
| main.py:321 | `all([isinstance(...), isinstance(...), song_name.strip(), artist.strip()])` builds the whole list before `all` runs, so `.strip()` is called on a missing or non-string member, and `data.get` on a body that is not an object; the exception is not caught and the answer is 500 | the JSON body `{"artist": "Pink Floyd"}` | 400 with "'song_name' and 'artist' must be non-empty strings." for every body that is not two non-blank strings | not executed | Requests.CheckPlayAsWritten, Requests.MissingFieldCrashes, Lifecycle.PlayAsWritten | Requests.CheckPlay (used by Lifecycle.Play) |

=== FILE: byte_range.dfy ===
/** How `/api/stream` turns a `Range` header into a response window
    (main.py, `stream_track`): the unanchored search for
    `bytes=(\d+)-(\d*)`, the defaults for missing bounds, the 416 rule, and
    the `Content-Range` / `Content-Length` values of the 206 answer. This is
    the single-range partial-content rule of section 14 of RFC 9110, with
    the deviations the code has. */
module ByteRange {
  import opened Wrappers
  import opened Text

  /** What one match of the pattern captures: the first bound, and the
      second one when its digit group is not empty. */
  datatype RangeSpec = RangeSpec(first: nat, last: Option<nat>)

  /** The length of the run of digits that starts at `p` (a greedy `\d*`). */
  function DigitRun(h: string, p: nat): (k: nat)
    requires p <= |h|
    ensures p + k <= |h|
    ensures AllDigits(h[p..p + k])
    ensures p + k == |h| || !IsDigit(h[p + k])
    decreases |h| - p
  {
    if p < |h| && IsDigit(h[p]) then
      var k := DigitRun(h, p + 1);
      assert h[p..p + 1 + k] == [h[p]] + h[p + 1..p + 1 + k];
      1 + k
    else 0
  }

  /** The pattern tried at position `p` only. `\d+` is followed by `-`, which
      is not a digit, so backtracking into a shorter digit run never helps:
      the run is taken whole. */
  function MatchAt(h: string, p: nat): (r: Option<RangeSpec>)
    requires p <= |h|
    ensures r.Some? ==> p + 6 < |h| && h[p..p + 6] == "bytes=" && IsDigit(h[p + 6])
    ensures r.Some? ==> p + 6 + DigitRun(h, p + 6) < |h| && h[p + 6 + DigitRun(h, p + 6)] == '-'
    ensures r.Some? ==> r.value.first == DecimalValue(h[p + 6..p + 6 + DigitRun(h, p + 6)])
    ensures r.Some? ==> (r.value.last.Some? <==> p + 7 + DigitRun(h, p + 6) < |h| && IsDigit(h[p + 7 + DigitRun(h, p + 6)]))
    ensures (&& p + 6 < |h| && h[p..p + 6] == "bytes=" && IsDigit(h[p + 6])
             && p + 6 + DigitRun(h, p + 6) < |h| && h[p + 6 + DigitRun(h, p + 6)] == '-') ==> r.Some?
  {
    if p + 6 <= |h| && h[p..p + 6] == "bytes=" then
      var a := DigitRun(h, p + 6);
      var dash := p + 6 + a;
      if a > 0 && dash < |h| && h[dash] == '-' then
        var b := DigitRun(h, dash + 1);
        assert h[p + 6..dash][0] == h[p + 6];
        Some(RangeSpec(DecimalValue(h[p + 6..dash]),
                       if b == 0 then None else Some(DecimalValue(h[dash + 1..dash + 1 + b]))))
      else None
    else None
  }

  /** The first position at or after `p` where the pattern matches, or
      `|h| + 1` when there is none. */
  function FirstMatch(h: string, p: nat): (q: nat)
    requires p <= |h|
    ensures p <= q <= |h| + 1
    ensures q <= |h| ==> MatchAt(h, q).Some?
    ensures forall i :: p <= i < q && i <= |h| ==> MatchAt(h, i).None?
    decreases |h| - p
  {
    if MatchAt(h, p).Some? then p
    else if p == |h| then |h| + 1
    else FirstMatch(h, p + 1)
  }

  /** Python's `re.search(r'bytes=(\d+)-(\d*)', h)`: the leftmost match. */
  function RangeSearch(h: string): (r: Option<RangeSpec>)
    ensures r.None? <==> forall p :: 0 <= p <= |h| ==> MatchAt(h, p).None?
    ensures r.Some? ==> r == MatchAt(h, FirstMatch(h, 0))
  {
    var q := FirstMatch(h, 0);
    if q <= |h| then MatchAt(h, q) else None
  }

  /** What the handler decides for one file: send it whole (200), send a
      window (206), or refuse the range (416). */
  datatype RangeDecision =
    | WholeFile
    | Window(start: nat, end: nat, length: int)
    | Unsatisfiable

  /** The bounds the handler computes before checking them: `0` and
      `size - 1`, replaced by whatever the first match captured. */
  function RequestedStart(h: string): (r: nat)
    ensures RangeSearch(h).None? ==> r == 0
    ensures RangeSearch(h).Some? ==> r == RangeSearch(h).value.first
  {
    var m := RangeSearch(h);
    if m.Some? then m.value.first else 0
  }

  function RequestedEnd(h: string, size: nat): (r: int)
    ensures RangeSearch(h).None? || RangeSearch(h).value.last.None? ==> r == size - 1
    ensures RangeSearch(h).Some? && RangeSearch(h).value.last.Some? ==> r == RangeSearch(h).value.last.value
  {
    var m := RangeSearch(h);
    if m.Some? && m.value.last.Some? then m.value.last.value else size - 1
  }

  /** The decision for a `Range` header (absent or empty means none) and a
      file of `size` bytes. A window always lies inside the file and its
      length is `end - start + 1`; nothing checks that start does not pass
      end, so that length can be zero or negative. */
  function ResolveRange(header: Option<string>, size: nat): (r: RangeDecision)
    ensures r.WholeFile? <==> header.None? || header.value == ""
    ensures r.Window? ==> r.start < size && r.end < size && r.length == r.end - r.start + 1
    ensures r.Window? ==> r.start == RequestedStart(header.value) && r.end == RequestedEnd(header.value, size)
    ensures r.Unsatisfiable? <==>
              header.Some? && header.value != "" &&
              (RequestedStart(header.value) >= size || RequestedEnd(header.value, size) >= size)
  {
    if header.None? || header.value == "" then WholeFile
    else
      var start := RequestedStart(header.value);
      var end := RequestedEnd(header.value, size);
      if start >= size || end >= size then Unsatisfiable
      else Window(start, end, end - start + 1)
  }

  /** The body of a 206 answer: `f.seek(start)` then `f.read(length)`. A
      negative length reads to the end of the file. */
  function Slice(file: seq<bv8>, start: nat, length: int): (body: seq<bv8>)
    requires start <= |file|
    ensures length >= 0 && start + length <= |file| ==> body == file[start..start + length]
    ensures length < 0 ==> body == file[start..]
  {
    if length < 0 then file[start..]
    else if start + length <= |file| then file[start..start + length]
    else file[start..]
  }

  /** `r` is `bytes A-B/C` for the digit strings `a`, `b` and `c`. */
  predicate RangeFields(r: string, a: string, b: string, c: string) {
    r == "bytes " + a + "-" + b + "/" + c && AllDigits(a) && AllDigits(b) && AllDigits(c)
  }

  /** The `Content-Range` value of a 206 answer: `bytes S-E/size`. */
  function ContentRange(start: nat, end: nat, size: nat): (r: string)
    ensures |r| >= 11 && r[..6] == "bytes "
    ensures forall i :: 6 <= i < |r| ==> IsDigit(r[i]) || r[i] == '-' || r[i] == '/'
    ensures exists a, b, c :: RangeFields(r, a, b, c) && DecimalValue(a) == start && DecimalValue(b) == end && DecimalValue(c) == size
  {
    var r := "bytes " + ShowNat(start) + "-" + ShowNat(end) + "/" + ShowNat(size);
    assert RangeFields(r, ShowNat(start), ShowNat(end), ShowNat(size));
    r
  }

  /** The header `bytes=S-E`, followed by whatever the client sent after it. */
  function RangeHeader(first: nat, last: nat, rest: string): string {
    "bytes=" + ShowNat(first) + "-" + ShowNat(last) + rest
  }

  /** `DigitRun` reads a known run of digits to its end when a non-digit (or
      the end of the string) follows it. */
  lemma {:induction false} DigitRunOver(h: string, p: nat, k: nat)
    requires p + k <= |h|
    requires AllDigits(h[p..p + k])
    requires p + k == |h| || !IsDigit(h[p + k])
    ensures DigitRun(h, p) == k
    decreases k
  {
    if k > 0 {
      assert IsDigit(h[p..p + k][0]);
      assert h[p + 1..p + k] == h[p..p + k][1..];
      DigitRunOver(h, p + 1, k - 1);
    }
  }

  /** A header that starts with `bytes=S-E` matches at its first position,
      whatever follows as long as it does not extend the second number. */
  lemma MatchesAtStart(first: nat, last: nat, rest: string)
    requires rest == [] || !IsDigit(rest[0])
    ensures RangeSearch(RangeHeader(first, last, rest)) == Some(RangeSpec(first, Some(last)))
  {
    var h := RangeHeader(first, last, rest);
    var a, b := ShowNat(first), ShowNat(last);
    assert h == "bytes=" + a + "-" + b + rest;
    assert h[0..6] == "bytes=";
    assert h[6..6 + |a|] == a;
    assert h[6 + |a|] == '-';
    DigitRunOver(h, 6, |a|);
    var d := 6 + |a|;
    assert h[d + 1..d + 1 + |b|] == b;
    assert d + 1 + |b| == |h| || h[d + 1 + |b|] == rest[0];
    DigitRunOver(h, d + 1, |b|);
    assert MatchAt(h, 0) == Some(RangeSpec(first, Some(last)));
  }

  /** A header that starts with `bytes=S-` and has nothing after it. */
  lemma MatchesOpenEnded(first: nat)
    ensures RangeSearch("bytes=" + ShowNat(first) + "-") == Some(RangeSpec(first, None))
  {
    var a := ShowNat(first);
    var h := "bytes=" + a + "-";
    assert h[0..6] == "bytes=";
    assert h[6..6 + |a|] == a;
    assert h[6 + |a|] == '-';
    DigitRunOver(h, 6, |a|);
    DigitRunOver(h, 7 + |a|, 0);
    assert MatchAt(h, 0) == Some(RangeSpec(first, None));
  }

  /** The pattern needs a `b`, so it cannot match at any position after the
      last `b` of the header. */
  lemma {:induction false} NoMatchWithoutB(h: string, p: nat)
    requires p <= |h|
    requires forall i :: p <= i < |h| ==> h[i] != 'b'
    ensures FirstMatch(h, p) == |h| + 1
    decreases |h| - p
  {
    if p + 6 <= |h| {
      assert h[p..p + 6][0] == h[p];
    }
    if p < |h| {
      NoMatchWithoutB(h, p + 1);
    }
  }

  /** The suffix form `bytes=-N` of RFC 9110 (the last N bytes) never
      matches the pattern. */
  lemma SuffixFormNeverMatches(n: nat)
    ensures RangeSearch("bytes=-" + ShowNat(n)) == None
  {
    var h := "bytes=-" + ShowNat(n);
    assert h[6] == '-';
    assert !IsDigit(h[6]);
    assert DigitRun(h, 6) == 0;
    assert MatchAt(h, 0).None?;
    forall i | 1 <= i < |h|
      ensures h[i] != 'b'
    {
      if i >= 7 {
        assert h[i] == ShowNat(n)[i - 7];
        assert IsDigit(h[i]);
      }
    }
    NoMatchWithoutB(h, 1);
  }

  /** `Range: bytes=S-E` with `S <= E < size`, possibly followed by more
      ranges (`bytes=0-99,200-299`), yields the window `S..E` of
      `E - S + 1` bytes: the first range wins. */
  lemma ClosedRangeServed(first: nat, last: nat, rest: string, size: nat)
    requires first <= last < size
    requires rest == [] || !IsDigit(rest[0])
    ensures ResolveRange(Some(RangeHeader(first, last, rest)), size) == Window(first, last, last - first + 1)
  {
    MatchesAtStart(first, last, rest);
  }

  /** `Range: bytes=S-` reads from `S` to the last byte. */
  lemma OpenRangeServed(first: nat, size: nat)
    requires first < size
    ensures ResolveRange(Some("bytes=" + ShowNat(first) + "-"), size) == Window(first, size - 1, size - first)
  {
    MatchesOpenEnded(first);
  }

  /** A non-empty header the pattern does not match (the suffix form among
      them) is still answered with 206, over the whole file. */
  lemma UnmatchedHeaderServesWholeWindow(h: string, size: nat)
    requires h != "" && RangeSearch(h) == None && size > 0
    ensures ResolveRange(Some(h), size) == Window(0, size - 1, size)
  {
  }

  lemma SuffixRangeServesWholeWindow(n: nat, size: nat)
    requires size > 0
    ensures ResolveRange(Some("bytes=-" + ShowNat(n)), size) == Window(0, size - 1, size)
  {
    SuffixFormNeverMatches(n);
  }

  /** A first bound at or past the end of the file is refused with 416. */
  lemma StartBeyondEndRefused(first: nat, size: nat)
    requires first >= size
    ensures ResolveRange(Some("bytes=" + ShowNat(first) + "-"), size) == Unsatisfiable
  {
    MatchesOpenEnded(first);
  }

  /** So is a second bound at or past the end of the file. */
  lemma LastBeyondEndRefused(first: nat, last: nat, rest: string, size: nat)
    requires last >= size
    requires rest == [] || !IsDigit(rest[0])
    ensures ResolveRange(Some(RangeHeader(first, last, rest)), size) == Unsatisfiable
  {
    MatchesAtStart(first, last, rest);
  }

  /** An empty file refuses every non-empty `Range` header. */
  lemma EmptyFileRefusesRanges(h: string)
    requires h != ""
    ensures ResolveRange(Some(h), 0) == Unsatisfiable
  {
  }

  /** A reversed range `bytes=S-E` with `E < S < size` is not refused: it
      yields a window whose length `E - S + 1` is zero or negative. */
  lemma ReversedRangeAccepted(first: nat, last: nat, rest: string, size: nat)
    requires last < first < size
    requires rest == [] || !IsDigit(rest[0])
    ensures ResolveRange(Some(RangeHeader(first, last, rest)), size) == Window(first, last, last - first + 1)
    ensures last - first + 1 <= 0
  {
    MatchesAtStart(first, last, rest);
  }

  /** For an ordered window the body is exactly bytes S..E of the file, and
      as long as `Content-Length` says. */
  lemma OrderedWindowBody(file: seq<bv8>, first: nat, last: nat)
    requires first <= last < |file|
    ensures Slice(file, first, last - first + 1) == file[first..last + 1]
    ensures |Slice(file, first, last - first + 1)| == last - first + 1
  {
  }

  /** For a window reversed by more than one byte the body is the rest of
      the file from S, not the negative length the header announces. */
  lemma ReversedWindowBody(file: seq<bv8>, first: nat, last: nat)
    requires last + 1 < first < |file|
    ensures Slice(file, first, last - first + 1) == file[first..]
    ensures |Slice(file, first, last - first + 1)| > 0 > last - first + 1
  {
  }
}

=== FILE: catalog.dfy ===
/** The server's two pieces of state: the `tracks` table (search key to
    record) and the music directory (file name to contents). */
module Catalog {
  import opened Wrappers

  /** The `status` column. */
  datatype Status = Caching | Cached | Error

  /** One row of `tracks`. `fileName` is NULL (`None`) until a download
      completes; `lastAccessedAt` is NULL until the row is first cached or
      streamed. Title, album and duration are read from the audio tags by a
      foreign library and are not part of this model. */
  datatype Track = Track(status: Status, fileName: Option<string>, lastAccessedAt: Option<int>)

  type Index = map<string, Track>

  /** The regular files of the music directory and their bytes. */
  type Dir = map<string, seq<bv8>>

  datatype Store = Store(tracks: Index, files: Dir)

  /** Names that `os.path.join(MUSIC_DIRECTORY, name)` turns into the music
      directory itself. */
  predicate IsDirectoryAlias(name: string) {
    name == "" || name == "."
  }

  /** `os.path.exists(os.path.join(MUSIC_DIRECTORY, name))` for a name
      without `/`: a regular file, the directory itself, or its parent. */
  predicate PathExists(files: Dir, name: string)
    ensures name in files ==> PathExists(files, name)
    ensures IsDirectoryAlias(name) || name == ".." ==> PathExists(files, name)
    ensures PathExists(files, name) && name !in files ==> IsDirectoryAlias(name) || name == ".."
  {
    name in files || IsDirectoryAlias(name) || name == ".."
  }

  /** A file name as a URL path segment carries it: no `/`, not empty. */
  predicate IsUrlSegment(name: string) {
    name != "" && '/' !in name
  }

  /** The sum of the sizes of the regular files in the directory. */
  ghost function Total(d: Dir): (r: nat)
    ensures r == 0 <==> forall m :: m in d ==> d[m] == []
    decreases d.Keys
  {
    if d.Keys == {} then 0
    else
      var n :| n in d.Keys;
      assert forall m :: m in d && m != n ==> m in d - {n} && (d - {n})[m] == d[m];
      |d[n]| + Total(d - {n})
  }

  /** The total is the same whichever file is counted first. */
  lemma {:induction false} TotalRemove(d: Dir, n: string)
    requires n in d
    ensures Total(d) == |d[n]| + Total(d - {n})
    decreases d.Keys
  {
    var m :| m in d.Keys && Total(d) == |d[m]| + Total(d - {m});
    if m != n {
      TotalRemove(d - {m}, n);
      TotalRemove(d - {n}, m);
      assert d - {m} - {n} == d - {n} - {m};
    }
  }

  /** `DELETE FROM tracks WHERE file_name = name`. */
  function DropFile(tracks: Index, name: string): (r: Index)
    ensures forall k :: k in r <==> k in tracks && tracks[k].fileName != Some(name)
    ensures forall k :: k in r ==> r[k] == tracks[k]
  {
    map k | k in tracks && tracks[k].fileName != Some(name) :: tracks[k]
  }

  /** `UPDATE tracks SET last_accessed_at = NOW() WHERE file_name = name`. */
  function Touch(tracks: Index, name: string, now: int): (r: Index)
    ensures r.Keys == tracks.Keys
    ensures forall k :: k in r ==>
              r[k] == if tracks[k].fileName == Some(name) then tracks[k].(lastAccessedAt := Some(now)) else tracks[k]
  {
    map k | k in tracks :: if tracks[k].fileName == Some(name) then tracks[k].(lastAccessedAt := Some(now)) else tracks[k]
  }

  /** Every record marked cached names a regular file that is present: the
      state in which a reader never meets a cached record without its file. */
  predicate Consistent(st: Store) {
    forall k :: k in st.tracks && st.tracks[k].status == Cached ==>
      st.tracks[k].fileName.Some? && st.tracks[k].fileName.value in st.files
  }

  /** The access-time update of `/api/stream` keeps every cached record
      backed by its file: it changes no status, file name or file. */
  lemma TouchKeepsConsistent(st: Store, name: string, now: int)
    requires Consistent(st)
    ensures Consistent(Store(Touch(st.tracks, name, now), st.files))
  {
  }
}

=== FILE: eviction.dfy ===
/** What `cleanup_cache` (main.py) does to the directory and the table,
    stated as functions: the sweep over the cached records in ascending
    `last_accessed_at` order, and the properties of its result. */
module Eviction {
  import opened Wrappers
  import opened Catalog

  /** `CACHE_LIMIT_BYTES`: 3 GiB. */
  const CacheLimitBytes: nat := 3 * 1024 * 1024 * 1024

  /** `CACHE_TARGET_BYTES`: the float 2.5 * 1024**3, which is exactly this
      integer. */
  const CacheTargetBytes: nat := 2684354560

  /** `NULLS LAST` order of `ORDER BY last_accessed_at ASC`: `a` may come
      before `b`. */
  predicate NotAfter(a: Option<int>, b: Option<int>) {
    b.None? || (a.Some? && a.value <= b.value)
  }

  /** `a` was accessed strictly before `b`. */
  predicate AccessedBefore(a: Option<int>, b: Option<int>) {
    a.Some? && (b.None? || a.value < b.value)
  }

  /** `byAge` is what `SELECT ... WHERE status = 'cached' ORDER BY
      last_accessed_at ASC` returns: every cached key once, oldest first. */
  predicate CachedByAge(tracks: Index, byAge: seq<string>)
    ensures byAge != [] && byAge[0] in tracks && CachedByAge(tracks, byAge) ==>
              forall k :: k in tracks && tracks[k].status == Cached ==>
                NotAfter(tracks[byAge[0]].lastAccessedAt, tracks[k].lastAccessedAt)
  {
    && (forall i :: 0 <= i < |byAge| ==> byAge[i] in tracks && tracks[byAge[i]].status == Cached)
    && (forall k :: k in tracks && tracks[k].status == Cached ==> k in byAge)
    && (forall i, j :: 0 <= i < j < |byAge| ==>
          byAge[i] != byAge[j] && NotAfter(tracks[byAge[i]].lastAccessedAt, tracks[byAge[j]].lastAccessedAt))
  }

  /** The `file_name` column of those rows, in the same order. */
  function CandidateNames(tracks: Index, byAge: seq<string>): (r: seq<Option<string>>)
    requires forall i :: 0 <= i < |byAge| ==> byAge[i] in tracks
    ensures |r| == |byAge|
    ensures forall i :: 0 <= i < |byAge| ==> r[i] == tracks[byAge[i]].fileName
  {
    if byAge == [] then [] else [tracks[byAge[0]].fileName] + CandidateNames(tracks, byAge[1..])
  }

  /** The state of the loop: directory, table, `deleted_bytes_total` and
      `deleted_files_count`. */
  datatype SweepState = SweepState(files: Dir, tracks: Index, deleted: nat, count: nat)

  /** One iteration for one `file_name`: skipped when NULL or empty, or when
      no regular file has that name (a name that exists but is not a file
      makes `os.remove` fail, and the error is only logged); otherwise the
      file and every row naming it go, and its size is counted. */
  function Step(s: SweepState, name: Option<string>): (r: SweepState)
    ensures r.files.Keys <= s.files.Keys && s.deleted <= r.deleted
    ensures r != s <==> name.Some? && name.value != "" && name.value in s.files
    ensures r != s ==>
              && r.files == s.files - {name.value}
              && r.tracks == DropFile(s.tracks, name.value)
              && r.deleted == s.deleted + |s.files[name.value]| && r.count == s.count + 1
  {
    if name.None? || name.value == "" || name.value !in s.files then s
    else
      var n := name.value;
      SweepState(s.files - {n}, DropFile(s.tracks, n), s.deleted + |s.files[n]|, s.count + 1)
  }

  /** The loop: it stops before a candidate as soon as the deleted total has
      reached `goal`. */
  function Sweep(s: SweepState, names: seq<Option<string>>, goal: int): (r: SweepState)
    ensures s.deleted >= goal ==> r == s
    ensures s.deleted <= r.deleted && s.count <= r.count
    ensures r.count == s.count ==> r.files == s.files && r.tracks == s.tracks
    decreases |names|
  {
    if names == [] || s.deleted >= goal then s
    else Sweep(Step(s, names[0]), names[1..], goal)
  }

  /** The whole of `cleanup_cache`: nothing happens while the directory is
      within the limit; otherwise the sweep runs towards the target. */
  ghost function CleanupResult(st: Store, byAge: seq<string>): (r: SweepState)
    requires forall i :: 0 <= i < |byAge| ==> byAge[i] in st.tracks
    ensures Total(st.files) <= CacheLimitBytes ==> r == SweepState(st.files, st.tracks, 0, 0)
    ensures r.count == 0 ==> r.files == st.files && r.tracks == st.tracks
  {
    var start := SweepState(st.files, st.tracks, 0, 0);
    if Total(st.files) <= CacheLimitBytes then start
    else Sweep(start, CandidateNames(st.tracks, byAge), Total(st.files) - CacheTargetBytes)
  }

  /** A file `n` the sweep removed. */
  ghost predicate Removed(s: SweepState, r: SweepState, n: string) {
    n in s.files && n !in r.files
  }

  /** The sweep only removes: what survives is unchanged, files and rows. */
  lemma {:induction false} SweepOnlyRemoves(s: SweepState, names: seq<Option<string>>, goal: int)
    ensures var r := Sweep(s, names, goal);
            && (forall n :: n in r.files ==> n in s.files && r.files[n] == s.files[n])
            && (forall k :: k in r.tracks ==> k in s.tracks && r.tracks[k] == s.tracks[k])
    decreases |names|
  {
    if names != [] && s.deleted < goal {
      SweepOnlyRemoves(Step(s, names[0]), names[1..], goal);
    }
  }

  /** Each removal adds exactly the size of the removed file to the deleted
      total and one to the count. */
  lemma {:induction false} SweepAccounting(s: SweepState, names: seq<Option<string>>, goal: int)
    ensures var r := Sweep(s, names, goal);
            && Total(r.files) + r.deleted == Total(s.files) + s.deleted
            && |r.files| + r.count == |s.files| + s.count
    decreases |names|
  {
    if names != [] && s.deleted < goal {
      var name := names[0];
      if name.Some? && name.value != "" && name.value in s.files {
        TotalRemove(s.files, name.value);
        assert (s.files - {name.value}).Keys == s.files.Keys - {name.value};
      }
      SweepAccounting(Step(s, names[0]), names[1..], goal);
    }
  }

  /** A row is deleted exactly when the file it names is removed: files and
      rows go together. */
  lemma {:induction false} SweepRowsFollowFiles(s: SweepState, names: seq<Option<string>>, goal: int)
    ensures var r := Sweep(s, names, goal);
            forall k :: k in s.tracks ==>
              (k !in r.tracks <==> s.tracks[k].fileName.Some? && Removed(s, r, s.tracks[k].fileName.value))
    decreases |names|
  {
    if names != [] && s.deleted < goal {
      var s' := Step(s, names[0]);
      SweepRowsFollowFiles(s', names[1..], goal);
      SweepOnlyRemoves(s', names[1..], goal);
    }
  }

  /** Only files named by a candidate record are removed. */
  lemma {:induction false} SweepOnlyCandidates(s: SweepState, names: seq<Option<string>>, goal: int)
    ensures forall n :: Removed(s, Sweep(s, names, goal), n) ==> Some(n) in names
    decreases |names|
  {
    if names != [] && s.deleted < goal {
      var s' := Step(s, names[0]);
      SweepOnlyCandidates(s', names[1..], goal);
      SweepOnlyRemoves(s', names[1..], goal);
      assert forall n :: n in s.files && n !in s'.files ==> names[0] == Some(n);
    }
  }

  /** The sweep ends with the goal reached, or with every candidate file
      gone. */
  lemma {:induction false} SweepReachesGoalOrExhausts(s: SweepState, names: seq<Option<string>>, goal: int)
    ensures var r := Sweep(s, names, goal);
            r.deleted >= goal ||
            forall i :: 0 <= i < |names| && names[i].Some? && names[i].value != "" ==> names[i].value !in r.files
    decreases |names|
  {
    if names != [] && s.deleted < goal {
      var s' := Step(s, names[0]);
      SweepReachesGoalOrExhausts(s', names[1..], goal);
      SweepOnlyRemoves(s', names[1..], goal);
      var r := Sweep(s, names, goal);
      if r.deleted < goal {
        forall i | 0 <= i < |names| && names[i].Some? && names[i].value != ""
          ensures names[i].value !in r.files
        {
          if i > 0 {
            assert names[i] == names[1..][i - 1];
          }
        }
      }
    }
  }

  /** Starting below the goal, the sweep overshoots it by less than one
      file: the last removal is the only one that may cross it. */
  lemma {:induction false} SweepOvershoot(s: SweepState, names: seq<Option<string>>, goal: int, bound: nat)
    requires s.deleted < goal
    requires forall n :: n in s.files ==> |s.files[n]| <= bound
    ensures Sweep(s, names, goal).deleted < goal + bound
    decreases |names|
  {
    if names != [] {
      var s' := Step(s, names[0]);
      if s'.deleted < goal {
        SweepOvershoot(s', names[1..], goal, bound);
      }
    }
  }

  /** Removal follows the candidates' order: when the file of candidate `j`
      is removed, and no candidate up to `i` names it, then the file of
      candidate `i < j` has been removed too (if it was a file at all). */
  lemma {:induction false} SweepInOrder(s: SweepState, names: seq<Option<string>>, goal: int,
                                        i: nat, j: nat, n: string, m: string)
    requires i < j < |names|
    requires names[i] == Some(n) && n != "" && n in s.files
    requires names[j] == Some(m) && Removed(s, Sweep(s, names, goal), m)
    requires forall q :: 0 <= q <= i ==> names[q] != Some(m)
    ensures n !in Sweep(s, names, goal).files
    decreases |names|
  {
    var s' := Step(s, names[0]);
    assert Sweep(s, names, goal) == Sweep(s', names[1..], goal);
    SweepOnlyRemoves(s', names[1..], goal);
    if n in s'.files {
      assert i > 0;
      SweepInOrder(s', names[1..], goal, i - 1, j - 1, n, m);
    }
  }

  /** Cleanup frees exactly what it counts: the directory shrinks by the
      deleted total. */
  lemma CleanupAccounting(st: Store, byAge: seq<string>)
    requires forall i :: 0 <= i < |byAge| ==> byAge[i] in st.tracks
    ensures Total(CleanupResult(st, byAge).files) + CleanupResult(st, byAge).deleted == Total(st.files)
  {
    if Total(st.files) > CacheLimitBytes {
      var s := SweepState(st.files, st.tracks, 0, 0);
      var names := CandidateNames(st.tracks, byAge);
      var goal := Total(st.files) - CacheTargetBytes;
      assert CleanupResult(st, byAge) == Sweep(s, names, goal);
      SweepAccounting(s, names, goal);
    }
  }

  /** Over the limit, cleanup brings the directory down to the target, or
      removes the file of every cached record that has one. */
  lemma CleanupReachesTarget(st: Store, byAge: seq<string>)
    requires CachedByAge(st.tracks, byAge)
    requires Total(st.files) > CacheLimitBytes
    ensures var r := CleanupResult(st, byAge);
            || Total(r.files) <= CacheTargetBytes
            || forall k :: (k in st.tracks && st.tracks[k].status == Cached && st.tracks[k].fileName.Some? &&
                            st.tracks[k].fileName.value != "") ==> st.tracks[k].fileName.value !in r.files
  {
    var names := CandidateNames(st.tracks, byAge);
    var s := SweepState(st.files, st.tracks, 0, 0);
    var goal := Total(st.files) - CacheTargetBytes;
    var r := Sweep(s, names, goal);
    assert CleanupResult(st, byAge) == r;
    SweepAccounting(s, names, goal);
    SweepReachesGoalOrExhausts(s, names, goal);
    if r.deleted < goal {
      forall k | k in st.tracks && st.tracks[k].status == Cached && st.tracks[k].fileName.Some? &&
                 st.tracks[k].fileName.value != ""
        ensures st.tracks[k].fileName.value !in r.files
      {
        var i :| 0 <= i < |byAge| && byAge[i] == k;
        assert names[i] == st.tracks[k].fileName;
      }
    }
  }

  /** Cleanup never frees more than one file beyond what it set out to. */
  lemma CleanupOvershoot(st: Store, byAge: seq<string>, bound: nat)
    requires forall i :: 0 <= i < |byAge| ==> byAge[i] in st.tracks
    requires Total(st.files) > CacheLimitBytes
    requires forall n :: n in st.files ==> |st.files[n]| <= bound
    ensures CleanupResult(st, byAge).deleted < Total(st.files) - CacheTargetBytes + bound
  {
    SweepOvershoot(SweepState(st.files, st.tracks, 0, 0), CandidateNames(st.tracks, byAge),
                   Total(st.files) - CacheTargetBytes, bound);
  }

  /** In the query's result, a record accessed strictly before another one
      is listed before it. */
  lemma ListedOlderFirst(tracks: Index, byAge: seq<string>, older: string, newer: string)
    returns (i: nat, j: nat)
    requires CachedByAge(tracks, byAge)
    requires older in tracks && newer in tracks
    requires tracks[older].status == Cached && tracks[newer].status == Cached
    requires AccessedBefore(tracks[older].lastAccessedAt, tracks[newer].lastAccessedAt)
    ensures i < j < |byAge| && byAge[i] == older && byAge[j] == newer
  {
    i :| 0 <= i < |byAge| && byAge[i] == older;
    j :| 0 <= j < |byAge| && byAge[j] == newer;
  }

  /** Cleanup removes a file together with every row that names it, and
      keeps every other row as it was. */
  lemma CleanupRemovesFileWithRows(st: Store, byAge: seq<string>)
    requires forall i :: 0 <= i < |byAge| ==> byAge[i] in st.tracks
    ensures var r := CleanupResult(st, byAge);
            && (forall k :: k in r.tracks ==> k in st.tracks && r.tracks[k] == st.tracks[k])
            && (forall k :: k in st.tracks ==>
                  (k !in r.tracks <==>
                     st.tracks[k].fileName.Some? && st.tracks[k].fileName.value in st.files &&
                     st.tracks[k].fileName.value !in r.files))
  {
    var s := SweepState(st.files, st.tracks, 0, 0);
    if Total(st.files) > CacheLimitBytes {
      var names := CandidateNames(st.tracks, byAge);
      var goal := Total(st.files) - CacheTargetBytes;
      assert CleanupResult(st, byAge) == Sweep(s, names, goal);
      SweepOnlyRemoves(s, names, goal);
      SweepRowsFollowFiles(s, names, goal);
    } else {
      assert CleanupResult(st, byAge) == s;
    }
  }

  /** Cleanup removes only files that a cached record names. */
  lemma CleanupRemovesOnlyCachedFiles(st: Store, byAge: seq<string>)
    requires CachedByAge(st.tracks, byAge)
    ensures var r := CleanupResult(st, byAge);
            forall n :: n in st.files && n !in r.files ==>
              exists k :: k in st.tracks && st.tracks[k].status == Cached && st.tracks[k].fileName == Some(n)
  {
    var s := SweepState(st.files, st.tracks, 0, 0);
    if Total(st.files) > CacheLimitBytes {
      var names := CandidateNames(st.tracks, byAge);
      var goal := Total(st.files) - CacheTargetBytes;
      var r := Sweep(s, names, goal);
      assert CleanupResult(st, byAge) == r;
      SweepOnlyCandidates(s, names, goal);
      forall n | n in st.files && n !in r.files
        ensures exists k :: k in st.tracks && st.tracks[k].status == Cached && st.tracks[k].fileName == Some(n)
      {
        var i :| 0 <= i < |names| && names[i] == Some(n);
        assert st.tracks[byAge[i]].fileName == Some(n);
      }
    } else {
      assert CleanupResult(st, byAge) == s;
    }
  }

  /** Least recently used first: when two cached records name different
      files, and the file of the more recently accessed one was removed,
      the file of the less recently accessed one was removed too. */
  lemma CleanupEvictsLeastRecentFirst(st: Store, byAge: seq<string>, older: string, newer: string)
    requires CachedByAge(st.tracks, byAge)
    requires older in st.tracks && newer in st.tracks
    requires st.tracks[older].status == Cached && st.tracks[newer].status == Cached
    requires AccessedBefore(st.tracks[older].lastAccessedAt, st.tracks[newer].lastAccessedAt)
    requires forall k :: k in st.tracks && k != newer ==> st.tracks[k].fileName != st.tracks[newer].fileName
    requires st.tracks[older].fileName.Some? && st.tracks[older].fileName.value != ""
    requires st.tracks[older].fileName.value in st.files
    requires st.tracks[newer].fileName.Some?
    requires Removed(SweepState(st.files, st.tracks, 0, 0), CleanupResult(st, byAge),
                     st.tracks[newer].fileName.value)
    ensures st.tracks[older].fileName.value !in CleanupResult(st, byAge).files
  {
    var s := SweepState(st.files, st.tracks, 0, 0);
    if Total(st.files) <= CacheLimitBytes {
      assert false;
    }
    var names := CandidateNames(st.tracks, byAge);
    var goal := Total(st.files) - CacheTargetBytes;
    assert CleanupResult(st, byAge) == Sweep(s, names, goal);
    var i, j := ListedOlderFirst(st.tracks, byAge, older, newer);
    forall q | 0 <= q <= i
      ensures names[q] != names[j]
    {
      assert byAge[q] != newer;
    }
    SweepInOrder(s, names, goal, i, j, st.tracks[older].fileName.value, st.tracks[newer].fileName.value);
  }

  /** Cleanup keeps the table consistent with the directory: no cached
      record is left naming a removed file. */
  lemma CleanupKeepsConsistent(st: Store, byAge: seq<string>)
    requires CachedByAge(st.tracks, byAge)
    requires Consistent(st)
    ensures var r := CleanupResult(st, byAge); Consistent(Store(r.tracks, r.files))
  {
    CleanupRemovesFileWithRows(st, byAge);
  }
}

=== FILE: lifecycle.dfy ===
/** The record life cycle and the two read endpoints, as functions of the
    store (main.py): the now-playing decision, the end of a background
    download, `/api/play`, and `/api/stream`. The class in `Server` performs
    the same steps in place. */
module Lifecycle {
  import opened Wrappers
  import opened Text
  import opened Requests
  import opened ByteRange
  import opened Catalog

  /** Whether the record's file is there: a non-empty name under which
      `os.path.exists` finds something. */
  predicate FilePresent(t: Track, files: Dir) {
    t.fileName.Some? && t.fileName.value != "" && PathExists(files, t.fileName.value)
  }

  /** What now-playing does with the row of the current track: insert a
      `caching` row, reset a cached row whose file is gone, or only report
      the row's status. The first two start a download. */
  datatype NowPlayingAction = InsertCaching | ResetCaching | Report(status: Status)

  function NowPlayingDecision(row: Option<Track>, files: Dir): (a: NowPlayingAction)
    ensures a.InsertCaching? <==> row.None?
    ensures a.ResetCaching? <==> row.Some? && row.value.status == Cached && !FilePresent(row.value, files)
    ensures a.Report? ==> row.Some? && a.status == row.value.status
    ensures a.Report? && a.status == Cached ==> FilePresent(row.value, files)
  {
    match row
    case None => InsertCaching
    case Some(t) =>
      if t.status == Cached && !FilePresent(t, files) then ResetCaching else Report(t.status)
  }

  function Lookup(tracks: Index, key: string): Option<Track> {
    if key in tracks then Some(tracks[key]) else None
  }

  /** The table after now-playing has handled `key`. */
  function AfterNowPlaying(st: Store, key: string): (r: Store)
    ensures r.files == st.files
    ensures r.tracks.Keys == st.tracks.Keys + {key}
    ensures forall k :: k in st.tracks && k != key ==> r.tracks[k] == st.tracks[k]
    ensures NowPlayingDecision(Lookup(st.tracks, key), st.files).Report? ==> r == st
    ensures !NowPlayingDecision(Lookup(st.tracks, key), st.files).Report? ==>
              r.tracks[key].status == Caching && r.tracks[key].fileName == None
    ensures NowPlayingDecision(Lookup(st.tracks, key), st.files).InsertCaching? ==>
              r.tracks[key] == Track(Caching, None, None)
    ensures NowPlayingDecision(Lookup(st.tracks, key), st.files).ResetCaching? ==>
              key in st.tracks && r.tracks[key] == st.tracks[key].(status := Caching, fileName := None)
  {
    match NowPlayingDecision(Lookup(st.tracks, key), st.files)
    case InsertCaching => Store(st.tracks[key := Track(Caching, None, None)], st.files)
    case ResetCaching => Store(st.tracks[key := st.tracks[key].(status := Caching, fileName := None)], st.files)
    case Report(_) => st
  }

  /** A second poll for the same track starts nothing: once now-playing has
      started a download, the row reports `caching` until the download ends. */
  lemma NowPlayingIdempotent(st: Store, key: string)
    ensures var st' := AfterNowPlaying(st, key);
            && NowPlayingDecision(Lookup(st'.tracks, key), st'.files).Report?
            && AfterNowPlaying(st', key) == st'
  {
  }

  /** `caching` and `error` rows start nothing and stay as they are: a failed
      download is not retried by now-playing. */
  lemma ErrorAndCachingStartNothing(st: Store, key: string)
    requires key in st.tracks && st.tracks[key].status != Cached
    ensures NowPlayingDecision(Some(st.tracks[key]), st.files) == Report(st.tracks[key].status)
    ensures AfterNowPlaying(st, key) == st
  {
  }

  /** What the background download produced: nothing (yt-dlp failed), or a
      file under a name the tool reports. */
  datatype Fetch = FetchFailed | Fetched(path: string)

  /** The final name of a download: a fresh UUID with the `.opus` suffix.
      It is a plain file name: never the directory or its parent, and free
      of `/` when the UUID is. */
  function FinalName(id: string): (r: string)
    ensures r != "" && !IsDirectoryAlias(r) && r != ".."
    ensures '/' !in id ==> IsUrlSegment(r)
  {
    var r := id + ".opus";
    assert r[|r| - 1] == 's';
    assert '/' !in id ==> '/' !in r by {
      if '/' in id {
      } else {
        forall i | 0 <= i < |r|
          ensures r[i] != '/'
        {
          if i < |id| {
            assert r[i] == id[i];
          } else {
            assert r[i] == ".opus"[i - |id|];
          }
        }
      }
    }
    r
  }

  /** `UPDATE tracks SET status = 'error' WHERE search_query = key`. */
  function MarkError(tracks: Index, key: string): (r: Index)
    ensures r.Keys == tracks.Keys
    ensures forall k :: k in tracks && k != key ==> r[k] == tracks[k]
    ensures key in tracks ==> r[key] == tracks[key].(status := Error)
  {
    if key in tracks then tracks[key := tracks[key].(status := Error)] else tracks
  }

  /** The end of `download_and_cache_track`. A missing output file is an
      error. Otherwise the file is renamed to its final name first; if its
      tags then cannot be read the row is set to `error` with the file left
      in place; else the row becomes `cached` with that name and access time.
      An update of a row that no longer exists changes nothing. */
  function AfterDownload(st: Store, key: string, fetch: Fetch, id: string, tagsReadable: bool, now: int): (r: Store)
    ensures r.tracks.Keys == st.tracks.Keys
    ensures forall k :: k in st.tracks && k != key ==> r.tracks[k] == st.tracks[k]
    ensures key in st.tracks ==>
              (r.tracks[key].status == Cached <==> fetch.Fetched? && fetch.path in st.files && tagsReadable)
    ensures key in st.tracks && r.tracks[key].status == Cached ==>
              && r.tracks[key].fileName == Some(FinalName(id))
              && FinalName(id) in r.files
              && r.files[FinalName(id)] == st.files[fetch.path]
              && r.tracks[key].lastAccessedAt == Some(now)
    ensures key in st.tracks && r.tracks[key].status != Cached ==> r.tracks[key] == st.tracks[key].(status := Error)
    ensures fetch.FetchFailed? || fetch.path !in st.files ==> r.files == st.files
    ensures fetch.Fetched? && fetch.path in st.files ==>
              r.files == (st.files - {fetch.path})[FinalName(id) := st.files[fetch.path]]
  {
    match fetch
    case FetchFailed => Store(MarkError(st.tracks, key), st.files)
    case Fetched(path) =>
      if path !in st.files then Store(MarkError(st.tracks, key), st.files)
      else
        var final := FinalName(id);
        var moved := (st.files - {path})[final := st.files[path]];
        if !tagsReadable then Store(MarkError(st.tracks, key), moved)
        else if key in st.tracks then
          Store(st.tracks[key := st.tracks[key].(status := Cached, fileName := Some(final), lastAccessedAt := Some(now))], moved)
        else Store(st.tracks, moved)
  }

  /** A successful download keeps every cached record backed by its file,
      provided the tool's output does not reuse the name of a cached file. */
  lemma DownloadKeepsConsistent(st: Store, key: string, fetch: Fetch, id: string, tagsReadable: bool, now: int)
    requires Consistent(st)
    requires fetch.Fetched? ==> forall k :: k in st.tracks && st.tracks[k].status == Cached ==>
                                  st.tracks[k].fileName != Some(fetch.path)
    ensures Consistent(AfterDownload(st, key, fetch, id, tagsReadable, now))
  {
  }

  /** Now-playing never breaks consistency: it only adds or resets rows to
      `caching`. */
  lemma NowPlayingKeepsConsistent(st: Store, key: string)
    requires Consistent(st)
    ensures Consistent(AfterNowPlaying(st, key))
  {
  }

  /** When the tags cannot be read the file stays under its final name with
      no record naming it, so no cleanup ever selects it. */
  lemma UnreadableTagsLeaveOrphan(st: Store, key: string, path: string, id: string, now: int)
    requires path in st.files
    requires forall k :: k in st.tracks ==> st.tracks[k].fileName != Some(FinalName(id))
    ensures var r := AfterDownload(st, key, Fetched(path), id, false, now);
            && FinalName(id) in r.files
            && forall k :: k in r.tracks ==> r.tracks[k].fileName != Some(FinalName(id))
  {
  }

  /** Responses of `/api/play`: the stream URL, or an error status. */
  datatype PlayResponse = StreamUrl(url: string) | Refused(status: nat)

  /** The lookup of `/api/play`: the `cached` row of the key, and its file.
      A NULL file name makes `os.path.join` raise, which becomes a 500. */
  function PlayLookup(st: Store, key: string): (r: PlayResponse)
    ensures r.StreamUrl? <==>
              && key in st.tracks && st.tracks[key].status == Cached
              && st.tracks[key].fileName.Some? && PathExists(st.files, st.tracks[key].fileName.value)
    ensures r.StreamUrl? ==> r.url == "/api/stream/" + st.tracks[key].fileName.value
    ensures r.Refused? ==> r.status == 404 || r.status == 500
    ensures r.Refused? ==>
              (r.status == 500 <==> key in st.tracks && st.tracks[key].status == Cached && st.tracks[key].fileName.None?)
  {
    if key in st.tracks && st.tracks[key].status == Cached then
      match st.tracks[key].fileName
      case None => Refused(500)
      case Some(n) => if PathExists(st.files, n) then StreamUrl("/api/stream/" + n) else Refused(404)
    else Refused(404)
  }

  /** `/api/play` with the input check its error message promises: 415 for
      a body that is not JSON, 400 for bad members, then the lookup. */
  function Play(st: Store, isJson: bool, body: Body): (r: PlayResponse)
    ensures !isJson ==> r == Refused(415)
    ensures isJson && CheckPlay(body).Rejected? ==> r == Refused(400)
    ensures r.StreamUrl? <==> isJson && CheckPlay(body).Accepted? && PlayLookup(st, CheckPlay(body).key).StreamUrl?
    ensures isJson && CheckPlay(body).Accepted? ==> r == PlayLookup(st, CheckPlay(body).key)
  {
    if !isJson then Refused(415)
    else match CheckPlay(body)
      case Rejected(status) => Refused(status)
      case Accepted(key) => PlayLookup(st, key)
  }

  /** `/api/play` as written: the same, except that the input check raises
      (500) on a body that is not an object or a member that is missing or
      not a string. */
  function PlayAsWritten(st: Store, isJson: bool, body: Body): (r: PlayResponse)
    ensures !isJson ==> r == Refused(415)
    ensures isJson && CheckPlayAsWritten(body).Rejected? ==> r == Refused(CheckPlayAsWritten(body).status)
    ensures isJson && (body.NotAnObject? || !body.songName.Str? || !body.artist.Str?) ==> r == Refused(500)
    ensures r.StreamUrl? <==>
              isJson && CheckPlayAsWritten(body).Accepted? && PlayLookup(st, CheckPlayAsWritten(body).key).StreamUrl?
    ensures isJson && CheckPlayAsWritten(body).Accepted? ==> r == PlayLookup(st, CheckPlayAsWritten(body).key)
  {
    if !isJson then Refused(415)
    else match CheckPlayAsWritten(body)
      case Rejected(status) => Refused(status)
      case Accepted(key) => PlayLookup(st, key)
  }

  /** The endpoint as written and as intended answer alike whenever both
      members are strings; they differ only where the check as written
      raises. */
  lemma PlayAgreesOnStrings(st: Store, isJson: bool, song: string, artist: string)
    ensures PlayAsWritten(st, isJson, Object(Str(song), Str(artist))) == Play(st, isJson, Object(Str(song), Str(artist)))
  {
    CheckPlayAgreesOnStrings(song, artist);
  }

  /** Responses of `/api/stream/<file_name>`. A name that denotes the music
      directory itself passes both guards; its size is then the directory's,
      and any answer that has to read it as a file fails. */
  datatype StreamResponse =
    | Forbidden
    | NotFound
    | DirectoryError
    | NotSatisfiable
    | Full(body: seq<bv8>)
    | Partial(contentRange: string, contentLength: int, body: seq<bv8>)

  /** What `os.path.getsize` reports for a name that passed both guards:
      the file's length, or `dirSize`, the size of the directory entry. */
  function SizeOf(files: Dir, name: string, dirSize: nat): (r: nat)
    requires PathExists(files, name) && name != ".."
    ensures IsDirectoryAlias(name) ==> r == dirSize
    ensures !IsDirectoryAlias(name) ==> name in files && r == |files[name]|
  {
    if IsDirectoryAlias(name) then dirSize else |files[name]|
  }

  /** `/api/stream/<name>` with an optional `Range` header; `dirSize` is
      the size of the music directory as `os.path.getsize` reports it. */
  function ServeStream(files: Dir, name: string, header: Option<string>, dirSize: nat): (r: StreamResponse)
    requires IsUrlSegment(name)
    ensures r.Forbidden? <==> name == ".."
    ensures r.NotFound? <==> name != ".." && !PathExists(files, name)
    ensures r.NotSatisfiable? <==>
              name != ".." && PathExists(files, name) && ResolveRange(header, SizeOf(files, name, dirSize)).Unsatisfiable?
    ensures r.DirectoryError? <==>
              IsDirectoryAlias(name) && !ResolveRange(header, dirSize).Unsatisfiable?
    ensures r.Full? ==> name in files && r.body == files[name] && (header.None? || header.value == "")
    ensures r.Partial? ==> name in files && r.contentLength <= |files[name]|
  {
    if name == ".." then Forbidden
    else if !PathExists(files, name) then NotFound
    else
      match ResolveRange(header, SizeOf(files, name, dirSize))
      case Unsatisfiable => NotSatisfiable
      case WholeFile => if IsDirectoryAlias(name) then DirectoryError else Full(files[name])
      case Window(s, e, len) =>
        if IsDirectoryAlias(name) then DirectoryError
        else Partial(ContentRange(s, e, |files[name]|), len, Slice(files[name], s, len))
  }

  /** `/api/stream/.` with `Range: bytes=S-` and `S` at or past the size of
      the directory entry is refused with 416, like a file. */
  lemma DirectoryRangeBeyondSizeRefused(files: Dir, first: nat, dirSize: nat)
    requires first >= dirSize
    ensures ServeStream(files, ".", Some("bytes=" + ShowNat(first) + "-"), dirSize) == NotSatisfiable
  {
    MatchesOpenEnded(first);
  }

  /** The directory itself is never sent: without a range, or with one inside
      its size, reading it as a file fails. */
  lemma DirectoryNeverServed(files: Dir, header: Option<string>, dirSize: nat)
    ensures var r := ServeStream(files, ".", header, dirSize);
            r == DirectoryError || r == NotSatisfiable
  {
  }

  /** `Range: bytes=S-E` with `S <= E < size` on a stored file: 206 with
      `Content-Range: bytes S-E/size`, `Content-Length` `E - S + 1`, and
      exactly bytes S..E of the file. */
  lemma StreamClosedRange(files: Dir, name: string, first: nat, last: nat, rest: string, dirSize: nat)
    requires IsUrlSegment(name) && name in files && !IsDirectoryAlias(name) && name != ".."
    requires first <= last < |files[name]|
    requires rest == [] || !IsDigit(rest[0])
    ensures ServeStream(files, name, Some(RangeHeader(first, last, rest)), dirSize) ==
            Partial(ContentRange(first, last, |files[name]|), last - first + 1, files[name][first..last + 1])
  {
    ClosedRangeServed(first, last, rest, |files[name]|);
    OrderedWindowBody(files[name], first, last);
  }

  /** Without a `Range` header, or with an empty one, a stored file is sent
      whole, with 200. */
  lemma StreamWithoutRange(files: Dir, name: string, header: Option<string>, dirSize: nat)
    requires IsUrlSegment(name) && name in files && !IsDirectoryAlias(name) && name != ".."
    requires header == None || header == Some("")
    ensures ServeStream(files, name, header, dirSize) == Full(files[name])
  {
    assert ResolveRange(header, |files[name]|) == WholeFile;
  }

  /** A range that starts or ends at or past the end of the file is refused
      with 416 and no body. */
  lemma StreamRangeBeyondEnd(files: Dir, name: string, first: nat, last: nat, rest: string, dirSize: nat)
    requires IsUrlSegment(name) && name in files && !IsDirectoryAlias(name) && name != ".."
    requires first >= |files[name]| || last >= |files[name]|
    requires rest == [] || !IsDigit(rest[0])
    ensures ServeStream(files, name, Some(RangeHeader(first, last, rest)), dirSize) == NotSatisfiable
  {
    MatchesAtStart(first, last, rest);
  }

  /** End to end: a track seen for the first time is inserted as `caching`;
      once its download succeeds, now-playing reports it cached, `/api/play`
      returns its stream URL, and streaming that name without a range
      returns the downloaded bytes whole. */
  lemma FirstPlayThenServe(st: Store, artist: string, title: string, path: string, id: string, now: int, dirSize: nat)
    requires CheckPlay(Object(Str(title), Str(artist))).Accepted?
    requires SearchKey(artist, title) !in st.tracks
    requires path in st.files
    requires '/' !in id
    ensures var key := SearchKey(artist, title);
            var st1 := AfterNowPlaying(st, key);
            var st2 := AfterDownload(st1, key, Fetched(path), id, true, now);
            && NowPlayingDecision(Lookup(st.tracks, key), st.files) == InsertCaching
            && NowPlayingDecision(Lookup(st2.tracks, key), st2.files) == Report(Cached)
            && Play(st2, true, Object(Str(title), Str(artist))) == StreamUrl("/api/stream/" + FinalName(id))
            && ServeStream(st2.files, FinalName(id), None, dirSize) == Full(st.files[path])
  {
    var key := SearchKey(artist, title);
    var final := FinalName(id);
    var st1 := AfterNowPlaying(st, key);
    assert st1.tracks[key] == Track(Caching, None, None);
    var st2 := AfterDownload(st1, key, Fetched(path), id, true, now);
    assert st2.tracks[key].fileName == Some(final);
    assert FilePresent(st2.tracks[key], st2.files);
    assert PlayLookup(st2, key) == StreamUrl("/api/stream/" + final);
    assert st2.files[final] == st.files[path];
    StreamWithoutRange(st2.files, final, None, dirSize);
  }
}

=== FILE: requests.dfy ===
/** The track key both endpoints build from an artist and a title, and the
    input check of `/api/play` (main.py, `get_now_playing` and
    `get_streamable_track`). */
module Requests {
  import opened Text

  /** The key of the `tracks` table: `lower(strip)` of the artist, a dash,
      then `lower(strip)` of the title. */
  lemma SeparatedIsLower(a: string, t: string)
    requires IsLower(a) && IsLower(t)
    ensures IsLower(a + " - " + t)
  {
    assert IsLower(" - ");
    ConcatIsLower(a, " - ");
    ConcatIsLower(a + " - ", t);
  }

  function SearchKey(artist: string, title: string): (r: string)
    ensures IsLower(r)
  {
    StripLowerIsLower(artist);
    StripLowerIsLower(title);
    SeparatedIsLower(Strip(Lower(artist)), Strip(Lower(title)));
    Strip(Lower(artist)) + " - " + Strip(Lower(title))
  }

  /** Now-playing joins the artists' names with ", " before building the key. */
  function NowPlayingKey(artists: seq<string>, title: string): (r: string)
    ensures |artists| == 1 ==> r == SearchKey(artists[0], title)
    ensures IsLower(r)
  {
    SearchKey(Join(", ", artists), title)
  }

  /** Artists or titles that differ only in letter case or in the whitespace
      around them lead to the same key, hence to the same table row. */
  lemma SearchKeyNormalises(artist: string, title: string, artist': string, title': string,
                            p1: string, q1: string, p2: string, q2: string)
    requires SameUpToCase(artist, artist') && SameUpToCase(title, title')
    requires AllSpace(p1) && AllSpace(q1) && AllSpace(p2) && AllSpace(q2)
    ensures SearchKey(p1 + artist' + q1, p2 + title' + q2) == SearchKey(artist, title)
  {
    LowerPadded(p1, artist', q1);
    LowerPadded(p2, title', q2);
    assert Lower(artist') == Lower(artist);
    assert Lower(title') == Lower(title);
    StripPadding(p1, Lower(artist), q1);
    StripPadding(p2, Lower(title), q2);
  }

  /** One member of the JSON object posted to `/api/play`, as `data.get`
      returns it: missing, a string, or any other JSON value. */
  datatype Field = Absent | Str(s: string) | NonString

  /** The decoded JSON body: an object with the two members the endpoint
      reads, or some other JSON value (a list, a number, null). */
  datatype Body = Object(songName: Field, artist: Field) | NotAnObject

  /** The outcome of the input check: the search key, or the HTTP status of
      the refusal. */
  datatype Checked = Accepted(key: string) | Rejected(status: nat)

  /** The check as written: `all([...])` over a list literal evaluates every
      element first, so `.strip()` runs on whatever `data.get` returned, and
      any non-string raises before `all` is reached; so does `data.get` on a
      body that is not an object. The uncaught exception becomes a 500. */
  function CheckPlayAsWritten(body: Body): (r: Checked)
    ensures r.Rejected? ==> r.status == 400 || r.status == 500
    ensures r.Rejected? && r.status == 500 <==>
              body.NotAnObject? || !body.songName.Str? || !body.artist.Str?
  {
    match body
    case NotAnObject => Rejected(500)
    case Object(song, artist) =>
      if !song.Str? || !artist.Str? then Rejected(500)
      else if Strip(song.s) == [] || Strip(artist.s) == [] then Rejected(400)
      else Accepted(SearchKey(artist.s, song.s))
  }

  /** The check as its error message states it: 400 unless both members are
      strings that are not blank; otherwise the key of the pair. */
  function CheckPlay(body: Body): (r: Checked)
    ensures r.Rejected? ==> r.status == 400
    ensures r.Accepted? <==>
              && body.Object? && body.songName.Str? && body.artist.Str?
              && !AllSpace(body.songName.s) && !AllSpace(body.artist.s)
    ensures r.Accepted? ==> r.key == SearchKey(body.artist.s, body.songName.s)
  {
    match body
    case NotAnObject => Rejected(400)
    case Object(song, artist) =>
      if !song.Str? || !artist.Str? then Rejected(400)
      else if Strip(song.s) == [] || Strip(artist.s) == [] then Rejected(400)
      else Accepted(SearchKey(artist.s, song.s))
  }

  /** A body without `song_name` is answered with 500 by the code as
      written, where its own message promises 400. */
  lemma MissingFieldCrashes()
    ensures CheckPlayAsWritten(Object(Absent, Str("Pink Floyd"))) == Rejected(500)
    ensures CheckPlay(Object(Absent, Str("Pink Floyd"))) == Rejected(400)
  {
  }

  /** The two checks differ only where the code as written crashes: on
      string members they give the same answer. */
  lemma CheckPlayAgreesOnStrings(song: string, artist: string)
    ensures CheckPlayAsWritten(Object(Str(song), Str(artist))) == CheckPlay(Object(Str(song), Str(artist)))
  {
  }
}

=== FILE: server.dfy ===
/** The server's state and the endpoint and background steps that change it
    (main.py): the `tracks` table and the music directory as fields of one
    object, updated in place the way the handlers update the database and
    the disk. Each method is proved against the functions of `Lifecycle` and
    `Eviction`, whose properties are proved there. */
module Server {
  import opened Wrappers
  import opened Requests
  import opened ByteRange
  import opened Catalog
  import opened Eviction
  import opened Lifecycle

  class MusicCache {
    /** The `tracks` table, by `search_query`. */
    var tracks: Index
    /** The regular files of the music directory. */
    var files: Dir

    ghost function State(): Store
      reads this
    {
      Store(tracks, files)
    }

    constructor (tracks0: Index, files0: Dir)
      ensures tracks == tracks0 && files == files0
    {
      tracks := tracks0;
      files := files0;
    }

    /** `get_now_playing` once the current track is known: builds the key
        from the artists and the title, then registers it. */
    method NowPlaying(artists: seq<string>, title: string) returns (status: Status, startDownload: bool)
      modifies this
      ensures var key := NowPlayingKey(artists, title);
              var action := NowPlayingDecision(Lookup(old(tracks), key), old(files));
              && State() == AfterNowPlaying(old(State()), key)
              && startDownload == !action.Report?
              && status == if action.Report? then action.status else Caching
    {
      var key := NowPlayingKey(artists, title);
      status, startDownload := Register(key);
    }

    /** The body of `get_now_playing` for a built key: looks the row up,
        inserts it or resets it to `caching` when a download has to start,
        and reports the status the response carries. */
    method Register(key: string) returns (status: Status, startDownload: bool)
      modifies this
      ensures var action := NowPlayingDecision(Lookup(old(tracks), key), old(files));
              && State() == AfterNowPlaying(old(State()), key)
              && startDownload == !action.Report?
              && status == if action.Report? then action.status else Caching
    {
      var fileIsMissing := false;
      if key in tracks && tracks[key].status == Cached {
        var name := tracks[key].fileName;
        if name.None? || name.value == "" || !PathExists(files, name.value) {
          fileIsMissing := true;
        }
      }
      if key !in tracks || fileIsMissing {
        status := Caching;
        if fileIsMissing {
          tracks := tracks[key := tracks[key].(status := Caching, fileName := None)];
        } else {
          tracks := tracks[key := Track(Caching, None, None)];
        }
        startDownload := true;
      } else {
        status := tracks[key].status;
        startDownload := false;
      }
    }

    /** The end of `download_and_cache_track` for `key`: on success the
        tool's file is renamed to its final name, and only then is the row
        set to `cached` with that name; any failure sets `error`. */
    method CompleteDownload(key: string, fetch: Fetch, id: string, tagsReadable: bool, now: int)
      modifies this
      ensures State() == AfterDownload(old(State()), key, fetch, id, tagsReadable, now)
    {
      if fetch.FetchFailed? || fetch.path !in files {
        tracks := MarkError(tracks, key);
        return;
      }
      var final := FinalName(id);
      var bytes := files[fetch.path];
      files := (files - {fetch.path})[final := bytes];
      if !tagsReadable {
        tracks := MarkError(tracks, key);
        return;
      }
      if key in tracks {
        tracks := tracks[key := tracks[key].(status := Cached, fileName := Some(final), lastAccessedAt := Some(now))];
      }
    }

    /** `stream_track`: the path guard, the existence check, the access-time
        update, then the range handling with `start` and `end` defaulted and
        overwritten step by step before `length` is computed. `dirSize` is
        what `os.path.getsize` reports for the music directory itself. */
    method Stream(name: string, header: Option<string>, dirSize: nat, now: int) returns (response: StreamResponse)
      requires IsUrlSegment(name)
      modifies this
      ensures files == old(files)
      ensures response == ServeStream(old(files), name, header, dirSize)
      ensures tracks == if name != ".." && PathExists(old(files), name) then Touch(old(tracks), name, now) else old(tracks)
    {
      if name == ".." {
        return Forbidden;
      }
      if !PathExists(files, name) {
        return NotFound;
      }
      tracks := Touch(tracks, name, now);
      var size := if IsDirectoryAlias(name) then dirSize else |files[name]|;
      if header.None? || header.value == "" {
        assert ResolveRange(header, size) == WholeFile;
        if IsDirectoryAlias(name) {
          return DirectoryError;
        }
        return Full(files[name]);
      }
      var start: int, end: int := 0, size - 1;
      var m := RangeSearch(header.value);
      if m.Some? {
        start := m.value.first;
        if m.value.last.Some? {
          end := m.value.last.value;
        }
      }
      assert start == RequestedStart(header.value) && end == RequestedEnd(header.value, size);
      if start >= size || end >= size {
        assert ResolveRange(header, size) == Unsatisfiable;
        return NotSatisfiable;
      }
      var length := end - start + 1;
      assert ResolveRange(header, size) == Window(start, end, length);
      if IsDirectoryAlias(name) {
        return DirectoryError;
      }
      var file := files[name];
      response := Partial(ContentRange(start, end, size), length, Slice(file, start, length));
    }

    /** The generator sum at the start of `cleanup_cache`: the size of
        every regular file of the directory, counted in whatever order the
        listing gives them. */
    method DirectorySize() returns (total: nat)
      ensures total == Total(files)
    {
      total := 0;
      var rest := files;
      while rest != map[]
        invariant total + Total(rest) == Total(files)
        decreases |rest|
      {
        var f :| f in rest;
        TotalRemove(rest, f);
        total := total + |rest[f]|;
        rest := rest - {f};
      }
      assert rest.Keys == {};
    }

    /** `cleanup_cache`: sums the directory, returns at once while it is
        within the limit, and otherwise evicts towards the target. Returns
        the deleted total and the number of files deleted. */
    method Cleanup(byAge: seq<string>) returns (freed: nat, removed: nat)
      requires CachedByAge(tracks, byAge)
      modifies this
      ensures var r := CleanupResult(old(State()), byAge);
              tracks == r.tracks && files == r.files && freed == r.deleted && removed == r.count
    {
      var total := DirectorySize();
      if total <= CacheLimitBytes {
        assert CleanupResult(State(), byAge) == SweepState(files, tracks, 0, 0);
        return 0, 0;
      }
      var names := CandidateNames(tracks, byAge);
      var goal := total - CacheTargetBytes;
      assert CleanupResult(State(), byAge) == Sweep(SweepState(files, tracks, 0, 0), names, goal);
      freed, removed := Evict(names, goal);
    }

    /** The loop of `cleanup_cache` over the `file_name` column of the
        cached records, oldest first: before each candidate it stops once
        the deleted total has reached `goal`; otherwise it deletes the
        candidate's file, if it is a regular file, and every row naming it. */
    method Evict(names: seq<Option<string>>, goal: int) returns (freed: nat, removed: nat)
      modifies this
      ensures var r := Sweep(SweepState(old(files), old(tracks), 0, 0), names, goal);
              tracks == r.tracks && files == r.files && freed == r.deleted && removed == r.count
    {
      ghost var result := Sweep(SweepState(files, tracks, 0, 0), names, goal);
      freed, removed := 0, 0;
      var i := 0;
      while i < |names|
        invariant i <= |names|
        invariant Sweep(SweepState(files, tracks, freed, removed), names[i..], goal) == result
      {
        if freed >= goal {
          break;
        }
        ghost var before := SweepState(files, tracks, freed, removed);
        assert names[i..][0] == names[i] && names[i..][1..] == names[i + 1..];
        assert Sweep(before, names[i..], goal) == Sweep(Step(before, names[i]), names[i + 1..], goal);
        var fileName := names[i];
        if fileName.Some? && fileName.value != "" {
          var n := fileName.value;
          if n in files {
            var size := |files[n]|;
            files := files - {n};
            tracks := DropFile(tracks, n);
            freed := freed + size;
            removed := removed + 1;
          }
        }
        assert SweepState(files, tracks, freed, removed) == Step(before, names[i]);
        i := i + 1;
      }
    }
  }
}

=== FILE: text.dfy ===
/** The string primitives the server relies on: Python's `str.strip()` and
    `str.lower()`, `", ".join(...)`, and the decimal digits that `int(...)`
    reads and `str(...)` writes. */
module Text {

  /** Python's `str.isspace()` for one code point (the characters `strip()`
      removes when called without arguments). */
  predicate IsSpace(c: char) {
    || c == ' '
    || ('\t' <= c <= '\r')
    || ('\U{1c}' <= c <= '\U{1f}')
    || c == '\U{85}'
    || c == '\U{a0}'
    || c == '\U{1680}'
    || ('\U{2000}' <= c <= '\U{200a}')
    || c == '\U{2028}'
    || c == '\U{2029}'
    || c == '\U{202f}'
    || c == '\U{205f}'
    || c == '\U{3000}'
  }

  predicate AllSpace(s: string) {
    forall i :: 0 <= i < |s| ==> IsSpace(s[i])
  }

  lemma SpaceThen(c: char, u: string)
    requires IsSpace(c) && AllSpace(u)
    ensures AllSpace([c] + u)
  {
    forall j | 0 <= j < |[c] + u|
      ensures IsSpace(([c] + u)[j])
    {
      if j > 0 {
        assert ([c] + u)[j] == u[j - 1];
      }
    }
  }

  /** Removes the leading whitespace, and nothing else. */
  function TrimStart(s: string): (r: string)
    ensures |r| <= |s| && r == s[|s| - |r|..]
    ensures AllSpace(s[..|s| - |r|])
    ensures r == [] || !IsSpace(r[0])
    decreases |s|
  {
    if s != [] && IsSpace(s[0]) then
      var t := s[1..];
      var r := TrimStart(t);
      var k := |s| - |r|;
      assert t[k - 1..] == s[k..];
      assert s[..k] == [s[0]] + t[..k - 1];
      SpaceThen(s[0], t[..k - 1]);
      r
    else s
  }

  /** Removes the trailing whitespace, and nothing else. */
  function TrimEnd(s: string): (r: string)
    ensures |r| <= |s| && r == s[..|r|]
    ensures AllSpace(s[|r|..])
    ensures r == [] || !IsSpace(r[|r| - 1])
    decreases |s|
  {
    if s != [] && IsSpace(s[|s| - 1]) then
      var t := s[..|s| - 1];
      var r := TrimEnd(t);
      assert t[..|r|] == s[..|r|];
      assert s[|r|..] == t[|r|..] + [s[|s| - 1]];
      r
    else s
  }

  /** `r` is `s` with the whitespace before position `i` and the whitespace
      after `r` cut off. */
  predicate CutAt(s: string, i: int, r: string) {
    0 <= i <= |s| - |r| && r == s[i..i + |r|] && AllSpace(s[..i]) && AllSpace(s[i + |r|..])
  }

  /** Python's `s.strip()`: `s` with whitespace cut from both ends, so that
      the result neither starts nor ends with whitespace; it is empty
      exactly when `s` is all whitespace. */
  function Strip(s: string): (r: string)
    ensures |r| <= |s|
    ensures exists i :: CutAt(s, i, r)
    ensures r == [] || (!IsSpace(r[0]) && !IsSpace(r[|r| - 1]))
    ensures r == [] <==> AllSpace(s)
  {
    var t := TrimStart(s);
    var r := TrimEnd(t);
    CutBothEnds(s, t, r);
    r
  }

  /** Cutting a whitespace prefix and then a whitespace suffix cuts the
      string at both ends; when nothing is left, it was all whitespace. */
  lemma CutBothEnds(s: string, t: string, r: string)
    requires |t| <= |s| && t == s[|s| - |t|..] && AllSpace(s[..|s| - |t|])
    requires |r| <= |t| && r == t[..|r|] && AllSpace(t[|r|..])
    ensures CutAt(s, |s| - |t|, r)
    ensures r == [] ==> AllSpace(s)
  {
    var i := |s| - |t|;
    assert s[i..i + |r|] == t[..|r|];
    assert s[i + |r|..] == t[|r|..];
    if r == [] {
      forall j | 0 <= j < |s|
        ensures IsSpace(s[j])
      {
        if j < i {
          assert s[j] == s[..i][j];
        } else {
          assert s[j] == t[|r|..][j - i];
        }
      }
    }
  }

  /** Surrounding whitespace never reaches the front of the trimmed string. */
  lemma {:induction false} TrimStartPadding(p: string, s: string)
    requires AllSpace(p)
    ensures TrimStart(p + s) == TrimStart(s)
    decreases |p|
  {
    if p == [] {
      assert p + s == s;
    } else {
      assert (p + s)[1..] == p[1..] + s;
      TrimStartPadding(p[1..], s);
    }
  }

  lemma {:induction false} TrimEndPadding(s: string, q: string)
    requires AllSpace(q)
    ensures TrimEnd(s + q) == TrimEnd(s)
    decreases |q|
  {
    if q == [] {
      assert s + q == s;
    } else {
      assert (s + q)[..|s + q| - 1] == s + q[..|q| - 1];
      TrimEndPadding(s, q[..|q| - 1]);
    }
  }

  /** Once a non-space character is met, whatever follows is kept. */
  lemma {:induction false} TrimStartKeepsTail(s: string, q: string)
    requires TrimStart(s) != []
    ensures TrimStart(s + q) == TrimStart(s) + q
    decreases |s|
  {
    assert s != [] && (s + q)[0] == s[0];
    if IsSpace(s[0]) {
      calc {
        TrimStart(s + q);
        == { TrimStartStep(s + q); }
        TrimStart((s + q)[1..]);
        == { assert (s + q)[1..] == s[1..] + q; }
        TrimStart(s[1..] + q);
        == { TrimStartStep(s); TrimStartKeepsTail(s[1..], q); }
        TrimStart(s[1..]) + q;
        == { TrimStartStep(s); }
        TrimStart(s) + q;
      }
    } else {
      TrimStartStep(s);
      TrimStartStep(s + q);
    }
  }

  /** One step of `lstrip`: a leading space is dropped, anything else stops. */
  lemma TrimStartStep(s: string)
    requires s != []
    ensures TrimStart(s) == if IsSpace(s[0]) then TrimStart(s[1..]) else s
  {
  }

  /** `strip()` ignores any whitespace added around its argument. */
  lemma StripPadding(p: string, s: string, q: string)
    requires AllSpace(p) && AllSpace(q)
    ensures Strip(p + s + q) == Strip(s)
  {
    assert p + s + q == p + (s + q);
    TrimStartPadding(p, s + q);
    if TrimStart(s) != [] {
      TrimStartKeepsTail(s, q);
      TrimEndPadding(TrimStart(s), q);
    } else {
      assert s == s[..|s| - |TrimStart(s)|];
      assert AllSpace(s + q);
      assert Strip(s + q) == [];
    }
  }

  /** Python's `str.lower()` on one code point: ASCII and Latin-1 capitals. */
  function LowerChar(c: char): char {
    if 'A' <= c <= 'Z' || ('\U{c0}' <= c <= '\U{de}' && c != '\U{d7}')
    then (c as int + 32) as char
    else c
  }

  /** Python's `s.lower()`: the same length, each character lowered. */
  function Lower(s: string): (r: string)
    ensures |r| == |s|
    ensures forall i :: 0 <= i < |s| ==> r[i] == LowerChar(s[i])
  {
    if s == [] then [] else [LowerChar(s[0])] + Lower(s[1..])
  }

  /** Two strings that differ only in the case of their letters. */
  predicate SameUpToCase(a: string, b: string) {
    |a| == |b| && forall i :: 0 <= i < |a| ==> LowerChar(a[i]) == LowerChar(b[i])
  }

  /** Lowering leaves whitespace as it is. */
  lemma SpaceKept(c: char)
    requires IsSpace(c)
    ensures LowerChar(c) == c
  {
  }

  /** Lowering does not touch whitespace and works piece by piece, so the
      lowered form of a padded string is the padded lowered form. */
  lemma LowerPadded(p: string, s: string, q: string)
    requires AllSpace(p) && AllSpace(q)
    ensures Lower(p + s + q) == p + Lower(s) + q
  {
    var x := p + s + q;
    var l := Lower(x);
    var m := p + Lower(s) + q;
    forall i | 0 <= i < |l|
      ensures l[i] == m[i]
    {
      if i < |p| {
        assert x[i] == p[i] && m[i] == p[i];
        SpaceKept(p[i]);
      } else if i < |p| + |s| {
        assert x[i] == s[i - |p|] && m[i] == Lower(s)[i - |p|];
      } else {
        assert x[i] == q[i - |p| - |s|] && m[i] == q[i - |p| - |s|];
        SpaceKept(q[i - |p| - |s|]);
      }
    }
  }

  /** A string that lowering leaves as it is. */
  predicate IsLower(t: string) {
    forall i :: 0 <= i < |t| ==> LowerChar(t[i]) == t[i]
  }

  lemma LowerCharTwice(c: char)
    ensures LowerChar(LowerChar(c)) == LowerChar(c)
  {
  }

  lemma LowerIsLower(s: string)
    ensures IsLower(Lower(s))
  {
    forall i | 0 <= i < |s|
      ensures LowerChar(Lower(s)[i]) == Lower(s)[i]
    {
      LowerCharTwice(s[i]);
    }
  }

  lemma ConcatIsLower(a: string, b: string)
    requires IsLower(a) && IsLower(b)
    ensures IsLower(a + b)
  {
    forall i | 0 <= i < |a + b|
      ensures LowerChar((a + b)[i]) == (a + b)[i]
    {
      if i < |a| {
        assert (a + b)[i] == a[i];
      } else {
        assert (a + b)[i] == b[i - |a|];
      }
    }
  }

  /** A stripped lowered string is all lower case. */
  lemma StripLowerIsLower(s: string)
    ensures IsLower(Strip(Lower(s)))
  {
    var l := Lower(s);
    var r := Strip(l);
    LowerIsLower(s);
    var k :| CutAt(l, k, r);
    CutIsLower(l, k, r);
  }

  lemma CutIsLower(l: string, k: nat, r: string)
    requires IsLower(l) && CutAt(l, k, r)
    ensures IsLower(r)
  {
    forall i | 0 <= i < |r|
      ensures LowerChar(r[i]) == r[i]
    {
      assert r[i] == l[k + i];
    }
  }

  /** Python's `sep.join(parts)`. */
  function Join(sep: string, parts: seq<string>): (r: string)
    ensures |parts| == 0 ==> r == ""
    ensures |parts| == 1 ==> r == parts[0]
    ensures |parts| > 0 ==> |parts[0]| <= |r| && r[..|parts[0]|] == parts[0]
    ensures |parts| > 0 ==> |parts[|parts| - 1]| <= |r| && r[|r| - |parts[|parts| - 1]|..] == parts[|parts| - 1]
  {
    if |parts| == 0 then ""
    else if |parts| == 1 then parts[0]
    else parts[0] + sep + Join(sep, parts[1..])
  }

  predicate IsDigit(c: char) {
    '0' <= c <= '9'
  }

  predicate AllDigits(s: string) {
    forall i :: 0 <= i < |s| ==> IsDigit(s[i])
  }

  /** Python's `int(s)` on a string of ASCII decimal digits. */
  function DecimalValue(s: string): (r: nat)
    requires AllDigits(s)
    ensures r == 0 <==> forall i :: 0 <= i < |s| ==> s[i] == '0'
  {
    if s == [] then 0
    else DecimalValue(s[..|s| - 1]) * 10 + (s[|s| - 1] as int - '0' as int)
  }

  /** Python's `str(n)`: digits that `int(...)` reads back as `n`. */
  function ShowNat(n: nat): (r: string)
    ensures r != [] && AllDigits(r)
    ensures DecimalValue(r) == n
    ensures n == 0 ==> r == "0"
    ensures n > 0 ==> r[0] != '0'
  {
    var d := ['0' + (n % 10) as char];
    if n < 10 then d
    else
      var h := ShowNat(n / 10);
      assert (h + d)[..|h + d| - 1] == h;
      h + d
  }
}

=== FILE: wrappers.dfy ===
/** The optional value used wherever the server may have nothing: an absent
    header, a missing table row, a NULL column, a regular expression that
    does not match. */
module Wrappers {

  datatype Option<+T> = None | Some(value: T)
}
